=== FILE: README.md ===
# Layered state machine and looped-sound latch

This project models two pieces of a Unity game's scripts.

- **`StateMachineLayer`**: a layer holds a registry from names to States and a `history` stack whose front is the active State. A null entry means "no active state". `ChangeState` replaces the front, `AddState` pushes a new front, and `RemoveState` pops it and resumes the State beneath. Each transition calls the `Exit`/`Enter` hooks of the States involved. The per-frame `Update`/`FixedUpdate` calls forward to the active State's input, decision, logic and physics hooks.
- **`PlaySound`**: a one-bit latch. `PlayLooped` asks the audio manager to play only if it has not already started; `StopLooped` stops the sound and re-arms the latch.

Everything is pure functions over immutable records:

- `StateMachineLayer.Layer` holds the label, the default State's name, `history: seq<Option<StateId>>` and `states: map<string, StateId>`.
- A State is an abstract `StateId`; equality of ids stands for reference equality.
- Each transition returns an `Outcome`: the new layer, the hook calls in the order the code makes them (`Enter(id)`, `Exit(id)`, `HandleInput(id)`, ...), and the exception, if any.
- The `currentState` accessors repair an empty history to `[null]` before reading or writing it. `Heal` models that repair, and every operation that reads or writes `currentState` goes through it. `RegisterState` and a failed name lookup in `ChangeState(string)` never touch `currentState`, so they leave an empty history empty.
- Looking up an unregistered name throws a `KeyNotFoundException` in the code. It is modelled as an `Outcome` with `failure == Some(KeyNotFound(name))`. That outcome keeps the hooks already fired and the history as the code leaves it.
- `PlaySound` calls return an `Effect`: the latch after the call and the `PlaySFX`/`StopSFX` commands sent to the audio manager.

Two behaviours of the code are easy to misread, and the model keeps both as written:

- `AddState` exits the current State before it looks up the name and before its re-entry guard. So, while a State is active, adding that same State or an unregistered name fires an `Exit` that no `Enter` matches, and the history is unchanged. With no active State, an unregistered name fires nothing before the lookup throws. `LayerProperties.HooksFollowHistory` shows these are exactly the calls whose hooks disagree with the history.
- One might expect `RemoveState` to undo `AddState`. It does so in two cases, both with a registered name:
  - over a non-null front `x`, when the name is a State other than `x` (`LayerProperties.AddRemoveRoundTrip`);
  - over the fresh history `[null]` (`LayerProperties.AddRemoveFromEmptyLayer`).

  It fails in three cases:
  - When the name is the current State, `AddState` fires only `Exit` and keeps the history, so `RemoveState` then pops that State (`LayerProperties.AddCurrentThenRemove`).
  - When the name is unregistered, `AddState` throws, after exiting the current State if there is one.
  - Over a null front with entries beneath it, `AddState` overwrites the null in place, so `RemoveState` also drops the null and resumes the State beneath (`LayerProperties.AddRemoveOverNullFront`). Such a history needs an earlier `ChangeState` to null over a pushed history: over any run, no entry below the front is ever null, and only a `ChangeState`-family call can create a null front with entries beneath it (`LayerProperties.RunKeepsNoNullBelowFront`, `LayerProperties.CallKeepsNoNullBelowFront`). A run without `ChangeState`, `ChangeState(string)` or `Start` keeps the history either `[null]` or free of nulls (`LayerProperties.RunWithoutChangeKeepsNullAlone`). In such runs the two lemmas above cover every pair whose `AddState` names a registered State other than the current one (`LayerProperties.RoundTripWithoutChange`).

## Model

| member | source | states |
|---|---|---|
| StateMachineLayer.Heal | Assets/Scripts/StateManagement/StateMachineLayer.cs:10-22 | the accessors never see an empty history: an empty one becomes `[null]`, any other is left as it is |
| StateMachineLayer.Current | Assets/Scripts/StateManagement/StateMachineLayer.cs:13-17 | the getter returns the front of a non-empty history, and null for an empty one (which it repairs first) |
| StateMachineLayer.SetCurrent | Assets/Scripts/StateManagement/StateMachineLayer.cs:18-22 | the setter changes only the front of the repaired history; length and the entries beneath stay, and the getter then returns the stored value |
| StateMachineLayer.NewLayer | Assets/Scripts/StateManagement/StateMachineLayer.cs:8-24 | a fresh layer has the label "New Layer", the given default name, the history `[null]` (so no active State) and an empty registry |
| StateMachineLayer.ChangeStateTo | Assets/Scripts/StateManagement/StateMachineLayer.cs:42-49 | naming the current State is a no-op with no hooks; otherwise only `history[0]` becomes the target (depth and `history[1..]` kept), with `Exit(old)` if old is non-null, then `Enter(target)` if the target is non-null |
| StateMachineLayer.ChangeStateNamed | Assets/Scripts/StateManagement/StateMachineLayer.cs:50-54 | `""` means the null target, a registered name means its State, and the call fails exactly for an unregistered non-empty name, which then leaves the layer untouched and fires nothing |
| StateMachineLayer.AddState | Assets/Scripts/StateManagement/StateMachineLayer.cs:56-66 | over a null front the target overwrites it in place, with `Enter(target)`; over another State the target is pushed (old history as the tail), with `Exit(old), Enter(target)`; naming the current State leaves the history and fires only `Exit(current)`; an unregistered name fails after the `Exit` has fired |
| StateMachineLayer.RemoveState | Assets/Scripts/StateManagement/StateMachineLayer.cs:68-77 | no-op over a null front; otherwise `Exit(head)`, the head is dropped (the last entry leaves `[null]`), and `Enter` fires on the newly exposed head when it is non-null |
| StateMachineLayer.RegisterState | Assets/Scripts/StateManagement/StateMachineLayer.cs:78-81 | exactly one registry entry is set (last writer wins), every other entry and the history are unchanged |
| StateMachineLayer.Start | Assets/Scripts/StateManagement/StateMachineLayer.cs:25-28 | a no-op for an empty default name, otherwise exactly `ChangeState(defaultState)` |
| StateMachineLayer.Update | Assets/Scripts/StateManagement/StateMachineLayer.cs:30-35 | no hooks over a null front; otherwise `HandleInput`, `HandleShouldChangeState`, `LogicUpdate` on the active State in that order |
| StateMachineLayer.FixedUpdate | Assets/Scripts/StateManagement/StateMachineLayer.cs:37-40 | no hooks over a null front; otherwise only `PhysicsUpdate` on the active State |
| LayerProperties.ChangeStateFollowsHistory | Assets/Scripts/StateManagement/StateMachineLayer.cs:42-49 | the hooks `ChangeState` fires take the active State from the old front to the target |
| LayerProperties.HooksFollowHistory | Assets/Scripts/StateManagement/StateMachineLayer.cs:25-81 | for each public call, replaying its hooks from the State active before ends at the State active after if and only if the call is not an `AddState` over an active State that names that State or an unregistered name |
| LayerProperties.RunHooksFollowHistory | Assets/Scripts/StateManagement/StateMachineLayer.cs:25-81 | over any run of calls without such an `AddState`, every `Exit` is of the active State, every `Enter` follows an `Exit` or a null front, and the hooks end at the final active State |
| LayerProperties.RunKeepsValid | Assets/Scripts/StateManagement/StateMachineLayer.cs:10-81 | every run of calls from a non-empty history leaves a non-empty history and the same label and default name; the registry changes only in runs containing `RegisterState` |
| LayerProperties.AddRemoveRoundTrip | Assets/Scripts/StateManagement/StateMachineLayer.cs:56-77 | over a non-null front `x`, `AddState(y)` for a registered `y` other than `x` followed by `RemoveState` restores the layer, with hooks `Exit(x), Enter(y), Exit(y), Enter(x)` |
| LayerProperties.AddRemoveFromEmptyLayer | Assets/Scripts/StateManagement/StateMachineLayer.cs:10-77 | over the fresh history `[null]`, `AddState(y)` for a registered `y` followed by `RemoveState` restores the layer, with hooks `Enter(y), Exit(y)` |
| LayerProperties.AddCurrentThenRemove | Assets/Scripts/StateManagement/StateMachineLayer.cs:56-77 | over a non-null front with entries beneath, adding the current State and then removing pops it: the history loses its front and the hooks are `Exit(x), Exit(x)` and then `Enter` on the State beneath |
| LayerProperties.CallKeepsNoNullBelowFront | Assets/Scripts/StateManagement/StateMachineLayer.cs:25-81 | every call keeps the entries below the front non-null; a null front with entries beneath is created only by a `ChangeState`-family call to null over a non-null front of depth two or more |
| LayerProperties.RunKeepsNoNullBelowFront | Assets/Scripts/StateManagement/StateMachineLayer.cs:25-81 | over any run, a history without null entries below its front (such as a fresh layer's `[null]`) keeps that property |
| LayerProperties.CallKeepsNullAlone | Assets/Scripts/StateManagement/StateMachineLayer.cs:30-81 | every call except `ChangeState`, `ChangeState(string)` and `Start` keeps a history that is either `[null]` or free of nulls |
| LayerProperties.RunWithoutChangeKeepsNullAlone | Assets/Scripts/StateManagement/StateMachineLayer.cs:30-81 | a whole run without those calls keeps that shape, so a null front with entries beneath never arises in it |
| LayerProperties.RoundTripWithoutChange | Assets/Scripts/StateManagement/StateMachineLayer.cs:56-77 | on a history of that shape, `AddState` of a registered State other than the current one followed by `RemoveState` restores the layer |
| LayerProperties.AddRemoveOverNullFront | Assets/Scripts/StateManagement/StateMachineLayer.cs:56-77 | over a null front with a State beneath, the same pair does not restore the history: it ends as the history without its null front, and the State beneath is entered |
| LayerProperties.ChangeStateBack | Assets/Scripts/StateManagement/StateMachineLayer.cs:42-49 | a `ChangeState` that took effect is undone by changing back to the old front, with the hooks in mirror order |
| LayerProperties.ChangeStateIdempotent | Assets/Scripts/StateManagement/StateMachineLayer.cs:44 | a second `ChangeState` to the same target changes nothing and fires nothing |
| LayerProperties.RegisterThenChange | Assets/Scripts/StateManagement/StateMachineLayer.cs:50-81 | after registering a State under a non-empty name, `ChangeState(name)` succeeds and enters exactly that State |
| LayerProperties.PauseOptionScenario | Assets/Scripts/StateManagement/StateMachineLayer.cs:25-77 | with "Pause" and "Option" registered and no default: `Start` leaves no active State; `AddState("Pause")` gives `[Pause]` and `Enter(Pause)`; `AddState("Option")` gives `[Option, Pause]` and `Exit(Pause), Enter(Option)`; `RemoveState` gives `[Pause]` and `Exit(Option), Enter(Pause)` |
| LayerProperties.ChangeToOptionAndBackScenario | Assets/Scripts/StateManagement/StateMachineLayer.cs:42-54 | `ChangeState("Option")` then `ChangeState("")` keeps depth one, enters and then exits Option, and ends with no active State |
| LayerProperties.UnregisteredNameScenario | Assets/Scripts/StateManagement/StateMachineLayer.cs:50-54 | `ChangeState("Nonexistent")` fails with a lookup error and leaves the layer and hooks untouched |
| PlaySound.Play | camera-game/Assets/Scripts/Music-SFX/PlaySound.cs:9-13 | sends exactly one `PlaySFX(name)` and leaves the latch alone |
| PlaySound.PlayLooped | camera-game/Assets/Scripts/Music-SFX/PlaySound.cs:15-27 | when not started, sends one `PlaySFX(name)` and sets the latch; when started, sends nothing and changes nothing |
| PlaySound.StopLooped | camera-game/Assets/Scripts/Music-SFX/PlaySound.cs:29-34 | whatever the latch was, clears it and sends one `StopSFX(name)` |
| PlaySound.PlayLoopedIdempotent | camera-game/Assets/Scripts/Music-SFX/PlaySound.cs:15-27 | a second `PlayLooped`, for any name, sends nothing and leaves the latch set |
| PlaySound.LoopedPlaysOnce | camera-game/Assets/Scripts/Music-SFX/PlaySound.cs:7-34 | over calls without `StopLooped`, the play requests are the plain `Play`s plus exactly one more when the latch was clear and some `PlayLooped` is made; no stop is sent and the latch ends set exactly when it was set or `PlayLooped` was called |
| PlaySound.AtMostOnePlayBetweenStops | camera-game/Assets/Scripts/Music-SFX/PlaySound.cs:7-34 | inside any run, the stretch after a `StopLooped` up to the next one, and the stretch from creation up to the first, each get at most one play request from `PlayLooped` beyond the plain `Play`s |

## Left out

- The bodies of the State hooks and the `State` base class are not part of this model. Each hook call is an opaque trace event.
- Transitions issued from inside a hook are not modelled. This includes a `HandleShouldChangeState` that calls `RemoveState`, as the pause State does. `Update` re-reads `currentState` before each hook call; with no transitions from hooks, every read returns the same front entry, so the model reads it once.
- Registering a null State, a null name, or a null `defaultState` is not modelled. The registry maps names to non-null ids, and names are strings.
- Unity's overloaded `==` makes a destroyed object compare equal to null. This is not modelled; ids compare by identity.
- The layer's `name` label is carried along but never used.
- `PauseState`, `Blackbar`, `PlayStepForAnim`, `FlashController`, `VisibleTimerTrigger` and `CinematicBarController` are not part of this model. They are engine UI, camera, physics, timing or event code around the core.
- The audio manager (`AM.Instance`) is external. Only the commands sent to it are modelled.

=== FILE: layer_properties.dfy ===
/**
  Properties relating several `StateMachineLayer` operations: the push/pop
  round trip and where it breaks, agreement between the hooks fired and the
  history over whole runs of calls, and the usage scenarios of the pause and
  options menus.
 */
module LayerProperties {
  import opened Wrappers
  import opened StateMachineLayer

  /** One public call on a layer. */
  datatype Call =
    | ChangeStateCall(target: Slot)
    | ChangeStateNamedCall(name: string)
    | AddStateCall(name: string)
    | RemoveStateCall
    | RegisterStateCall(name: string, state: StateId)
    | StartCall
    | UpdateCall
    | FixedUpdateCall

  /** The outcome of one call. */
  function Apply(l: Layer, c: Call): Outcome {
    match c
    case ChangeStateCall(target) => ChangeStateTo(l, target)
    case ChangeStateNamedCall(name) => ChangeStateNamed(l, name)
    case AddStateCall(name) => AddState(l, name)
    case RemoveStateCall => RemoveState(l)
    case RegisterStateCall(name, state) => Outcome(RegisterState(l, name, state), [], None)
    case StartCall => Start(l)
    case UpdateCall => Update(l)
    case FixedUpdateCall => FixedUpdate(l)
  }

  /**
    Calls made one after another, as one script of calls would make them:
    the first exception ends the run. The engine would log an exception
    thrown in a frame callback and keep driving the layer on later frames;
    such a sequence is the chaining of several runs, and every run lemma
    here applies to each piece, since a failed outcome still leaves a
    non-empty history.
   */
  function Run(l: Layer, calls: seq<Call>): Outcome
    decreases |calls|
  {
    if calls == [] then Outcome(l, [], None)
    else
      var o := Apply(l, calls[0]);
      if o.failure.Some? then o
      else
        var r := Run(o.layer, calls[1..]);
        Outcome(r.layer, o.trace + r.trace, r.failure)
  }

  /**
    Replays a hook trace against the State believed active: `Enter` needs no
    active State and makes its State active, `Exit` and the update hooks need
    their State to be the active one, and `Exit` leaves none active. The
    result is the final active State, or `None` when the trace breaks this
    discipline.
   */
  function Track(active: Slot, trace: seq<Event>): Option<Slot>
    decreases |trace|
  {
    if trace == [] then Some(active)
    else
      match trace[0]
      case Enter(s) => if active == None then Track(Some(s), trace[1..]) else None
      case Exit(s) => if active == Some(s) then Track(None, trace[1..]) else None
      case _ => if active == Some(trace[0].id) then Track(active, trace[1..]) else None
  }

  /** The result of replaying `t` after an earlier replay that ended in `b`. */
  function TrackThen(b: Option<Slot>, t: seq<Event>): Option<Slot> {
    match b
    case None => None
    case Some(a) => Track(a, t)
  }

  lemma {:induction false} TrackAppend(a: Slot, t1: seq<Event>, t2: seq<Event>)
    ensures Track(a, t1 + t2) == TrackThen(Track(a, t1), t2)
    decreases |t1|
  {
    if t1 == [] {
      assert t1 + t2 == t2;
    } else {
      assert (t1 + t2)[0] == t1[0];
      assert (t1 + t2)[1..] == t1[1..] + t2;
      match t1[0]
      case Enter(s) => if a == None { TrackAppend(Some(s), t1[1..], t2); }
      case Exit(s) => if a == Some(s) { TrackAppend(None, t1[1..], t2); }
      case _ => if a == Some(t1[0].id) { TrackAppend(a, t1[1..], t2); }
    }
  }

  /** The hooks of a `ChangeState` carry the active State from the old front to the target. */
  lemma ChangeStateFollowsHistory(l: Layer, target: Slot)
    ensures Track(Current(l.history), ChangeStateTo(l, target).trace) == Some(target)
  {
    var cur := Current(l.history);
    if cur != target {
      var t := ChangeStateTo(l, target).trace;
      assert Track(cur, t) == Track(None, EnterHook(target));
      if target.Some? {
        assert Track(None, EnterHook(target)) == Track(target, []);
      }
    }
  }

  /**
    The calls whose hooks disagree with the history: `AddState` on a layer
    with an active State, naming that same State or an unregistered name,
    exits the State although it stays at the front.
   */
  predicate Unmatched(l: Layer, c: Call) {
    c.AddStateCall? && Current(l.history).Some?
    && (c.name !in l.states || Current(l.history) == Some(l.states[c.name]))
  }

  /**
    Every call except the unmatched ones fires hooks that are consistent with
    the history: replaying its trace from the State active before ends at the
    State active after; for the unmatched ones it does not.
   */
  lemma HooksFollowHistory(l: Layer, c: Call)
    ensures Track(Current(l.history), Apply(l, c).trace) == Some(Current(Apply(l, c).layer.history))
      <==> !Unmatched(l, c)
  {
    var o := Apply(l, c);
    var cur := Current(l.history);
    match c
    case ChangeStateCall(target) =>
      ChangeStateFollowsHistory(l, target);
    case ChangeStateNamedCall(name) =>
      if name == "" {
        ChangeStateFollowsHistory(l, None);
      } else if name in l.states {
        ChangeStateFollowsHistory(l, Some(l.states[name]));
      }
    case AddStateCall(name) =>
      if name in l.states {
        var y := l.states[name];
        if cur == None {
          assert o.trace == [Enter(y)];
          assert Track(None, [Enter(y)]) == Track(Some(y), []);
        } else if cur != Some(y) {
          assert o.trace == [Exit(cur.value), Enter(y)];
          assert Track(cur, o.trace) == Track(None, [Enter(y)]);
          assert Track(None, [Enter(y)]) == Track(Some(y), []);
        } else {
          assert Track(cur, o.trace) == Track(None, []);
        }
      } else if cur.Some? {
        assert Track(cur, o.trace) == Track(None, []);
      }
    case RemoveStateCall =>
      if cur.Some? {
        var next := Current(o.layer.history);
        assert Track(cur, o.trace) == Track(None, EnterHook(next));
        if next.Some? {
          assert Track(None, EnterHook(next)) == Track(next, []);
        }
      }
    case RegisterStateCall(name, state) =>
    case StartCall =>
      if l.defaultState == "" {
      } else if l.defaultState in l.states {
        ChangeStateFollowsHistory(l, Some(l.states[l.defaultState]));
      }
    case UpdateCall =>
      if cur.Some? {
        var s := cur.value;
        assert o.trace == [HandleInput(s), HandleShouldChangeState(s), LogicUpdate(s)];
        assert Track(cur, o.trace) == Track(cur, [HandleShouldChangeState(s), LogicUpdate(s)]);
        assert Track(cur, [HandleShouldChangeState(s), LogicUpdate(s)]) == Track(cur, [LogicUpdate(s)]);
        assert Track(cur, [LogicUpdate(s)]) == Track(cur, []);
      }
    case FixedUpdateCall =>
  }

  /** No call of the run, at the point it is made, is an unmatched one. */
  predicate MatchedRun(l: Layer, calls: seq<Call>)
    decreases |calls|
  {
    calls == []
    || (!Unmatched(l, calls[0])
        && (Apply(l, calls[0]).failure.Some? || MatchedRun(Apply(l, calls[0]).layer, calls[1..])))
  }

  /**
    Over a whole run without unmatched calls, the hooks fired are exactly
    those that carry the active State from the one before the run to the one
    after it: every `Exit` is of the active State and every `Enter` follows
    an `Exit` or a null front.
   */
  lemma {:induction false} RunHooksFollowHistory(l: Layer, calls: seq<Call>)
    requires MatchedRun(l, calls)
    ensures Track(Current(l.history), Run(l, calls).trace) == Some(Current(Run(l, calls).layer.history))
    decreases |calls|
  {
    if calls != [] {
      var o := Apply(l, calls[0]);
      HooksFollowHistory(l, calls[0]);
      if o.failure.None? {
        RunHooksFollowHistory(o.layer, calls[1..]);
        TrackAppend(Current(l.history), o.trace, Run(o.layer, calls[1..]).trace);
      }
    }
  }

  /**
    Every call, and so every run, leaves a history that is not empty and
    keeps the label and default name; the registry changes only in runs
    that register a State.
   */
  lemma {:induction false} RunKeepsValid(l: Layer, calls: seq<Call>)
    requires Valid(l)
    ensures Valid(Run(l, calls).layer)
    ensures Run(l, calls).layer.name == l.name && Run(l, calls).layer.defaultState == l.defaultState
    ensures Run(l, calls).layer.states == l.states || exists c :: c in calls && c.RegisterStateCall?
    decreases |calls|
  {
    if calls != [] {
      var o := Apply(l, calls[0]);
      if o.failure.None? {
        RunKeepsValid(o.layer, calls[1..]);
        if Run(o.layer, calls[1..]).layer.states != o.layer.states {
          var c :| c in calls[1..] && c.RegisterStateCall?;
          assert c in calls;
        } else if !calls[0].RegisterStateCall? {
          assert SameConfiguration(l, o.layer);
        }
      }
    }
  }

  /**
    Push then pop: over a non-null front `x`, adding a registered State `y`
    other than `x` and removing it again restores the history exactly, with
    hooks `Exit(x), Enter(y), Exit(y), Enter(x)`.
   */
  lemma AddRemoveRoundTrip(l: Layer, name: string)
    requires Valid(l) && Current(l.history).Some?
    requires name in l.states && Some(l.states[name]) != Current(l.history)
    ensures var a := AddState(l, name);
            var r := RemoveState(a.layer);
            a.failure == None && r.layer == l
            && a.trace + r.trace == [Exit(Current(l.history).value), Enter(l.states[name]),
                                     Exit(l.states[name]), Enter(Current(l.history).value)]
  {
    var a := AddState(l, name);
    assert a.layer.history == [Some(l.states[name])] + l.history;
    assert a.layer.history[1..] == l.history;
  }

  /**
    Over the fresh history `[null]` the pair restores it too: `AddState`
    overwrites the null, `RemoveState` empties the list and the getter's
    repair brings back `[null]`; the hooks are `Enter(y), Exit(y)`.
   */
  lemma AddRemoveFromEmptyLayer(l: Layer, name: string)
    requires l.history == [None]
    requires name in l.states
    ensures var a := AddState(l, name);
            var r := RemoveState(a.layer);
            a.failure == None && r.layer == l
            && a.trace + r.trace == [Enter(l.states[name]), Exit(l.states[name])]
  {
  }

  /**
    Adding the State that is already current and then removing does not
    restore the history either: the `AddState` only exits, so the
    `RemoveState` pops that State and resumes the one beneath.
   */
  lemma AddCurrentThenRemove(l: Layer, name: string)
    requires |l.history| > 1 && l.history[0].Some?
    requires name in l.states && Some(l.states[name]) == l.history[0]
    ensures var a := AddState(l, name);
            var r := RemoveState(a.layer);
            r.layer.history == l.history[1..] != l.history
            && a.trace + r.trace == [Exit(l.states[name]), Exit(l.states[name])] + EnterHook(l.history[1])
  {
    assert |l.history[1..]| < |l.history|;
  }

  /** A non-empty history with no null entry below its front. */
  predicate NoNullBelowFront(h: seq<Slot>) {
    |h| > 0 && forall i :: 1 <= i < |h| ==> h[i].Some?
  }

  /**
    Every call keeps the entries below the front non-null, and the only
    calls that can create a null front with entries beneath it are those of
    the `ChangeState` family, changing to null over a non-null front of a
    history of depth two or more.
   */
  lemma CallKeepsNoNullBelowFront(l: Layer, c: Call)
    requires NoNullBelowFront(l.history)
    ensures var h' := Apply(l, c).layer.history;
            NoNullBelowFront(h')
            && (h'[0] == None && |h'| > 1 && !(l.history[0] == None && |l.history| > 1) ==>
                  ChangesState(c) && |l.history| > 1 && l.history[0].Some?)
  {
    var h := l.history;
    var o := Apply(l, c);
    var h' := o.layer.history;
    match c
    case ChangeStateCall(target) =>
      assert h'[1..] == h[1..];
      forall i | 1 <= i < |h'| ensures h'[i].Some? {
        assert h'[i] == h'[1..][i - 1];
      }
    case ChangeStateNamedCall(name) =>
      if name == "" || name in l.states {
        assert h'[1..] == h[1..];
        forall i | 1 <= i < |h'| ensures h'[i].Some? {
          assert h'[i] == h'[1..][i - 1];
        }
      }
    case StartCall =>
      if l.defaultState != "" && (l.defaultState in l.states) {
        assert h'[1..] == h[1..];
        forall i | 1 <= i < |h'| ensures h'[i].Some? {
          assert h'[i] == h'[1..][i - 1];
        }
      }
    case AddStateCall(name) =>
      if name in l.states && h[0] != Some(l.states[name]) {
        if h[0].Some? {
          assert h' == [Some(l.states[name])] + h;
          forall i | 1 <= i < |h'| ensures h'[i].Some? {
            assert h'[i] == h[i - 1];
          }
        } else {
          assert h'[1..] == h[1..];
          forall i | 1 <= i < |h'| ensures h'[i].Some? {
            assert h'[i] == h'[1..][i - 1];
          }
        }
      }
    case RemoveStateCall =>
      if h[0].Some? && |h| > 1 {
        assert h' == h[1..];
        forall i | 0 <= i < |h'| ensures h'[i].Some? {
          assert h'[i] == h[i + 1];
        }
      }
    case RegisterStateCall(_, _) =>
    case UpdateCall =>
    case FixedUpdateCall =>
  }

  /**
    Over any run, the entries below the front of a history that starts
    without null entries below its front stay non-null; so a null front with
    entries beneath it arises only from a `ChangeState` to null.
   */
  lemma {:induction false} RunKeepsNoNullBelowFront(l: Layer, calls: seq<Call>)
    requires NoNullBelowFront(l.history)
    ensures NoNullBelowFront(Run(l, calls).layer.history)
    decreases |calls|
  {
    if calls != [] {
      CallKeepsNoNullBelowFront(l, calls[0]);
      var o := Apply(l, calls[0]);
      if o.failure.None? {
        RunKeepsNoNullBelowFront(o.layer, calls[1..]);
      }
    }
  }

  /**
    The history shape `AddState`/`RemoveState` keep: either the lone null
    entry of a fresh layer, or no null entry at all.
   */
  predicate NullAlone(h: seq<Slot>) {
    h == [None] || (|h| > 0 && forall i :: 0 <= i < |h| ==> h[i].Some?)
  }

  /** A call that can write a null entry over a pushed history. */
  predicate ChangesState(c: Call) {
    c.ChangeStateCall? || c.ChangeStateNamedCall? || c.StartCall?
  }

  /** No `ChangeState`-family call in the run. */
  predicate WithoutChange(calls: seq<Call>) {
    forall i :: 0 <= i < |calls| ==> !ChangesState(calls[i])
  }

  /** Each call other than the `ChangeState` family keeps the history shape of `NullAlone`. */
  lemma CallKeepsNullAlone(l: Layer, c: Call)
    requires NullAlone(l.history) && !ChangesState(c)
    ensures NullAlone(Apply(l, c).layer.history)
  {
    var h := l.history;
    var o := Apply(l, c);
    match c
    case AddStateCall(name) =>
      if name in l.states && h[0] != Some(l.states[name]) {
        if h[0].Some? {
          var h' := o.layer.history;
          assert h' == [Some(l.states[name])] + h;
          forall i | 0 <= i < |h'| ensures h'[i].Some? {
            if i > 0 { assert h'[i] == h[i - 1]; }
          }
        }
      }
    case RemoveStateCall =>
      if h[0].Some? && |h| > 1 {
        var h' := o.layer.history;
        assert h' == h[1..];
        forall i | 0 <= i < |h'| ensures h'[i].Some? {
          assert h'[i] == h[i + 1];
        }
      }
    case RegisterStateCall(_, _) =>
    case UpdateCall =>
    case FixedUpdateCall =>
  }

  /**
    A run without `ChangeState`, `ChangeState(string)` or `Start`, from a
    history that has a null entry only as the lone `[null]`, ends with a
    history of that shape too.
   */
  lemma {:induction false} RunWithoutChangeKeepsNullAlone(l: Layer, calls: seq<Call>)
    requires NullAlone(l.history) && WithoutChange(calls)
    ensures NullAlone(Run(l, calls).layer.history)
    decreases |calls|
  {
    if calls != [] {
      assert !ChangesState(calls[0]);
      CallKeepsNullAlone(l, calls[0]);
      var o := Apply(l, calls[0]);
      if o.failure.None? {
        assert WithoutChange(calls[1..]) by {
          forall i | 0 <= i < |calls[1..]| ensures !ChangesState(calls[1..][i]) {
            assert calls[1..][i] == calls[i + 1];
          }
        }
        RunWithoutChangeKeepsNullAlone(o.layer, calls[1..]);
      }
    }
  }

  /**
    On a history of the `NullAlone` shape, which every run without the
    `ChangeState` family keeps, `AddState` of a registered State other than
    the current one followed by `RemoveState` restores the layer.
   */
  lemma RoundTripWithoutChange(l: Layer, name: string)
    requires NullAlone(l.history)
    requires name in l.states && Some(l.states[name]) != Current(l.history)
    ensures RemoveState(AddState(l, name).layer).layer == l
  {
    if l.history == [None] {
      AddRemoveFromEmptyLayer(l, name);
    } else {
      AddRemoveRoundTrip(l, name);
    }
  }

  /**
    The round trip does not hold over a null front with States beneath it: `AddState` overwrites the
    null entry instead of pushing over it, so `RemoveState` then drops the
    null too and resumes the State that was suspended beneath it.
   */
  lemma AddRemoveOverNullFront(l: Layer, name: string)
    requires |l.history| > 1 && l.history[0] == None
    requires name in l.states
    ensures var a := AddState(l, name);
            var r := RemoveState(a.layer);
            r.layer.history == l.history[1..] != l.history
            && a.trace + r.trace == [Enter(l.states[name]), Exit(l.states[name])] + EnterHook(l.history[1])
  {
    var a := AddState(l, name);
    assert a.layer.history[1..] == l.history[1..];
    assert |l.history[1..]| < |l.history|;
  }

  /** A `ChangeState` that has happened is undone by changing back, with hooks in mirror order. */
  lemma ChangeStateBack(l: Layer, target: Slot)
    requires Valid(l) && Current(l.history) != target
    ensures var c := ChangeStateTo(l, target);
            var b := ChangeStateTo(c.layer, Current(l.history));
            b.layer == l
            && c.trace + b.trace == ExitHook(Current(l.history)) + EnterHook(target)
                                    + ExitHook(target) + EnterHook(Current(l.history))
  {
    var c := ChangeStateTo(l, target);
    assert c.layer.history[1..] == l.history[1..];
    var b := ChangeStateTo(c.layer, Current(l.history));
    assert b.layer.history[1..] == l.history[1..];
    assert b.layer.history == [b.layer.history[0]] + b.layer.history[1..];
    assert l.history == [l.history[0]] + l.history[1..];
  }

  /** Changing to the same target twice: the second call changes nothing and fires nothing. */
  lemma ChangeStateIdempotent(l: Layer, target: Slot)
    ensures var c := ChangeStateTo(l, target);
            ChangeStateTo(c.layer, target) == Outcome(c.layer, [], None)
  {
  }

  /** Registering a name and then changing to it enters exactly the registered State. */
  lemma RegisterThenChange(l: Layer, name: string, state: StateId)
    requires name != "" && Current(l.history) != Some(state)
    ensures var o := ChangeStateNamed(RegisterState(l, name, state), name);
            o.failure == None && Current(o.layer.history) == Some(state)
            && o.trace == ExitHook(Current(l.history)) + [Enter(state)]
  {
  }

  /** The State ids the scenarios use. */
  const PauseId: StateId := 1
  const OptionId: StateId := 2

  /** A layer without a default State in which "Pause" and "Option" have registered. */
  function MenuLayer(): Layer {
    RegisterState(RegisterState(NewLayer(""), "Pause", PauseId), "Option", OptionId)
  }

  /**
    Start with no default leaves the layer inactive; adding "Pause" then
    "Option" stacks them with the hooks in order; removing returns to "Pause".
   */
  lemma PauseOptionScenario()
    ensures var s := Start(MenuLayer());
            Current(s.layer.history) == None && s.trace == []
            && var p := AddState(s.layer, "Pause");
            p.layer.history == [Some(PauseId)] && p.trace == [Enter(PauseId)]
            && var q := AddState(p.layer, "Option");
            q.layer.history == [Some(OptionId), Some(PauseId)] && q.trace == [Exit(PauseId), Enter(OptionId)]
            && var r := RemoveState(q.layer);
            r.layer.history == [Some(PauseId)] && r.trace == [Exit(OptionId), Enter(PauseId)]
  {
    var s := Start(MenuLayer());
    var p := AddState(s.layer, "Pause");
    var q := AddState(p.layer, "Option");
    assert q.layer.history == [Some(OptionId)] + [Some(PauseId)];
    var r := RemoveState(q.layer);
  }

  /** Changing to "Option" and then to "" keeps depth one and ends with no active State. */
  lemma ChangeToOptionAndBackScenario()
    ensures var a := ChangeStateNamed(MenuLayer(), "Option");
            a.layer.history == [Some(OptionId)] && a.trace == [Enter(OptionId)]
            && var b := ChangeStateNamed(a.layer, "");
            b.layer.history == [None] && b.trace == [Exit(OptionId)]
  {
  }

  /** Looking up an unregistered name throws and leaves the layer as it was. */
  lemma UnregisteredNameScenario()
    ensures var o := ChangeStateNamed(MenuLayer(), "Nonexistent");
            o.failure == Some(KeyNotFound("Nonexistent")) && o.layer == MenuLayer() && o.trace == []
  {
  }
}

=== FILE: play_sound.dfy ===
/**
  A model of the `PlaySound` component: a one-bit latch that keeps a looped
  sound effect from being started twice. Calls into the audio manager are
  recorded as the `Command`s an operation returns.
 */
module PlaySound {

  /** A request sent to the audio manager. */
  datatype Command = PlaySFX(name: string) | StopSFX(name: string)

  /** The component's only field: whether a looped effect has been started. */
  datatype Sound = Sound(startedPlaying: bool)

  /** The latch as the component is created. */
  const Initial: Sound := Sound(false)

  /** The component after a call, and the commands the call sent. */
  datatype Effect = Effect(sound: Sound, commands: seq<Command>)

  /** `Play`: always forwards one play request; the latch is not involved. */
  function Play(s: Sound, name: string): (e: Effect)
    ensures e.sound == s && e.commands == [PlaySFX(name)]
  {
    Effect(s, [PlaySFX(name)])
  }

  /** `PlayLooped`: plays only when not yet started, and then sets the latch. */
  function PlayLooped(s: Sound, name: string): (e: Effect)
    ensures e.sound.startedPlaying
    ensures !s.startedPlaying ==> e.commands == [PlaySFX(name)]
    ensures s.startedPlaying ==> e == Effect(s, [])
  {
    if !s.startedPlaying then Effect(Sound(true), [PlaySFX(name)]) else Effect(s, [])
  }

  /** `StopLooped`: always clears the latch and forwards one stop request. */
  function StopLooped(s: Sound, name: string): (e: Effect)
    ensures !e.sound.startedPlaying && e.commands == [StopSFX(name)]
  {
    Effect(Sound(false), [StopSFX(name)])
  }

  /** A second `PlayLooped`, for any name, changes nothing and sends nothing. */
  lemma PlayLoopedIdempotent(s: Sound, first: string, second: string)
    ensures var e := PlayLooped(s, first);
            PlayLooped(e.sound, second) == Effect(e.sound, [])
  {
  }

  /** One public call on the component. */
  datatype Call = PlayCall(name: string) | PlayLoopedCall(name: string) | StopLoopedCall(name: string)

  /** The effect of one call. */
  function Apply(s: Sound, c: Call): Effect {
    match c
    case PlayCall(name) => Play(s, name)
    case PlayLoopedCall(name) => PlayLooped(s, name)
    case StopLoopedCall(name) => StopLooped(s, name)
  }

  /** Calls made one after another, with their commands concatenated. */
  function Run(s: Sound, calls: seq<Call>): Effect
    decreases |calls|
  {
    if calls == [] then Effect(s, [])
    else
      var e := Apply(s, calls[0]);
      var r := Run(e.sound, calls[1..]);
      Effect(r.sound, e.commands + r.commands)
  }

  /** The number of play requests among `cmds`. */
  function PlayCount(cmds: seq<Command>): nat
    decreases |cmds|
  {
    if cmds == [] then 0 else (if cmds[0].PlaySFX? then 1 else 0) + PlayCount(cmds[1..])
  }

  /** The number of stop requests among `cmds`. */
  function StopCount(cmds: seq<Command>): nat
    decreases |cmds|
  {
    if cmds == [] then 0 else (if cmds[0].StopSFX? then 1 else 0) + StopCount(cmds[1..])
  }

  /** The number of plain `Play` calls among `calls`. */
  function PlainPlays(calls: seq<Call>): nat
    decreases |calls|
  {
    if calls == [] then 0 else (if calls[0].PlayCall? then 1 else 0) + PlainPlays(calls[1..])
  }

  /** Some call among `calls` is a `PlayLooped`. */
  predicate HasLooped(calls: seq<Call>) {
    exists i :: 0 <= i < |calls| && calls[i].PlayLoopedCall?
  }

  /** No call among `calls` is a `StopLooped`. */
  predicate NoStops(calls: seq<Call>) {
    forall i :: 0 <= i < |calls| ==> !calls[i].StopLoopedCall?
  }

  lemma {:induction false} CountsAppend(a: seq<Command>, b: seq<Command>)
    ensures PlayCount(a + b) == PlayCount(a) + PlayCount(b)
    ensures StopCount(a + b) == StopCount(a) + StopCount(b)
    decreases |a|
  {
    if a == [] {
      assert a + b == b;
    } else {
      assert (a + b)[0] == a[0];
      assert (a + b)[1..] == a[1..] + b;
      CountsAppend(a[1..], b);
    }
  }

  /** Running two call sequences back to back is running their concatenation. */
  lemma {:induction false} RunAppend(s: Sound, a: seq<Call>, b: seq<Call>)
    ensures var e := Run(s, a);
            var f := Run(e.sound, b);
            Run(s, a + b) == Effect(f.sound, e.commands + f.commands)
    decreases |a|
  {
    if a == [] {
      assert a + b == b;
    } else {
      assert (a + b)[0] == a[0];
      assert (a + b)[1..] == a[1..] + b;
      RunAppend(Apply(s, a[0]).sound, a[1..], b);
    }
  }

  /**
    Without an intervening `StopLooped`, `PlayLooped` calls add at most one
    play request: exactly one when the latch was clear and some `PlayLooped`
    is made, none otherwise. Every other play request comes from a plain
    `Play`, no stop request is sent, and the latch ends set exactly when it
    was set or some `PlayLooped` was made.
   */
  lemma {:induction false} LoopedPlaysOnce(s: Sound, calls: seq<Call>)
    requires NoStops(calls)
    ensures var e := Run(s, calls);
            PlayCount(e.commands) == PlainPlays(calls) + (if !s.startedPlaying && HasLooped(calls) then 1 else 0)
            && StopCount(e.commands) == 0
            && e.sound.startedPlaying == (s.startedPlaying || HasLooped(calls))
    decreases |calls|
  {
    if calls != [] {
      var c := calls[0];
      var tail := calls[1..];
      assert NoStops(tail) by {
        forall i | 0 <= i < |tail| ensures !tail[i].StopLoopedCall? {
          assert tail[i] == calls[i + 1];
        }
      }
      var e := Apply(s, c);
      LoopedPlaysOnce(e.sound, tail);
      CountsAppend(e.commands, Run(e.sound, tail).commands);
      assert HasLooped(calls) == (c.PlayLoopedCall? || HasLooped(tail)) by {
        if HasLooped(tail) {
          var i :| 0 <= i < |tail| && tail[i].PlayLoopedCall?;
          assert calls[i + 1] == tail[i];
        }
        if HasLooped(calls) && !c.PlayLoopedCall? {
          var i :| 0 <= i < |calls| && calls[i].PlayLoopedCall?;
          assert tail[i - 1] == calls[i];
        }
      }
    }
  }

  /**
    The stretch after a `StopLooped` up to the next `StopLooped`, inside any
    longer run, receives at most one play request from `PlayLooped`; so does
    the stretch from creation up to the first `StopLooped`.
   */
  lemma AtMostOnePlayBetweenStops(s: Sound, prefix: seq<Call>, name: string, segment: seq<Call>)
    requires NoStops(segment)
    ensures var before := Run(s, prefix + [StopLoopedCall(name)]).commands;
            PlayCount(Run(s, prefix + [StopLoopedCall(name)] + segment).commands)
              <= PlayCount(before) + PlainPlays(segment) + 1
    ensures PlayCount(Run(Initial, segment).commands) <= PlainPlays(segment) + 1
  {
    var head := prefix + [StopLoopedCall(name)];
    RunAppend(s, head, segment);
    RunAppend(s, prefix, [StopLoopedCall(name)]);
    var stopped := Run(s, head).sound;
    assert stopped == Initial;
    LoopedPlaysOnce(Initial, segment);
    CountsAppend(Run(s, head).commands, Run(stopped, segment).commands);
  }
}

=== FILE: state_machine_layer.dfy ===
/**
  A model of the layered history-stack state machine `StateMachineLayer`.

  The layer keeps a registry from names to States and a `history` stack whose
  front is the active State; a `None` slot stands for a `null`
  entry of the C# class's history ("no active state"). Every call of a State hook (`Enter`, `Exit`,
  `HandleInput`, ...) is recorded as an `Event` in the trace an operation
  returns, in the order the C# class makes the calls. Its lookup of an
  unregistered name throws; that is modelled as an `Outcome` whose `failure` is
  set, carrying the hooks fired before the throw and the history as it was left.
 */
module StateMachineLayer {
  import opened Wrappers

  /** Identity of a State object; equality of ids models reference equality. */
  type StateId = nat

  /** One entry of the history stack: `None` is a null entry. */
  type Slot = Option<StateId>

  /** A call of one State hook on the State with the given id. */
  datatype Event =
    | Enter(id: StateId)
    | Exit(id: StateId)
    | HandleInput(id: StateId)
    | HandleShouldChangeState(id: StateId)
    | LogicUpdate(id: StateId)
    | PhysicsUpdate(id: StateId)

  /** The fields of a layer: a label, the name of the default State, the history and the registry. */
  datatype Layer = Layer(name: string, defaultState: string, history: seq<Slot>, states: map<string, StateId>)

  /** The dictionary lookup of a name that was never registered. */
  datatype LookupError = KeyNotFound(key: string)

  /** The layer after an operation, the hooks it fired, and the exception it threw, if any. */
  datatype Outcome = Outcome(layer: Layer, trace: seq<Event>, failure: Option<LookupError>)

  /** The label a fresh layer carries. */
  const DefaultLayerName: string := "New Layer"

  /** A freshly constructed layer: history `[null]`, empty registry. */
  function NewLayer(defaultState: string): (r: Layer)
    ensures Valid(r) && Current(r.history) == None && |r.history| == 1
    ensures r.states == map[] && r.defaultState == defaultState && r.name == DefaultLayerName
  {
    Layer(DefaultLayerName, defaultState, [None], map[])
  }

  /** A layer whose history has the never-empty shape every operation re-establishes. */
  predicate Valid(l: Layer) {
    |l.history| > 0
  }

  /** The registry, label and default name are the same in both layers. */
  predicate SameConfiguration(l: Layer, l': Layer) {
    l'.name == l.name && l'.defaultState == l.defaultState && l'.states == l.states
  }

  /**
    The repair the `currentState` accessors perform before touching the
    history: an empty history becomes `[null]`, any other is left alone.
   */
  function Heal(h: seq<Slot>): (r: seq<Slot>)
    ensures |r| > 0
    ensures |h| > 0 ==> r == h
    ensures |h| == 0 ==> r == [None]
  {
    if |h| == 0 then [None] else h
  }

  /** The value the `currentState` getter returns. */
  function Current(h: seq<Slot>): (r: Slot)
    ensures |h| > 0 ==> r == h[0]
    ensures |h| == 0 ==> r == None
  {
    Heal(h)[0]
  }

  /**
    The history after the `currentState` setter stores `v`: after the repair,
    only the front entry changes.
   */
  function SetCurrent(h: seq<Slot>, v: Slot): (r: seq<Slot>)
    ensures |r| == |Heal(h)| && r[0] == v
    ensures r[1..] == Heal(h)[1..]
    ensures Current(r) == v
  {
    Heal(h)[0 := v]
  }

  /** The `Exit` call made on `s` when it is non-null. */
  function ExitHook(s: Slot): seq<Event> {
    if s.Some? then [Exit(s.value)] else []
  }

  /** The `Enter` call made on `s` when it is non-null. */
  function EnterHook(s: Slot): seq<Event> {
    if s.Some? then [Enter(s.value)] else []
  }

  /**
    `ChangeState(State)`: replace the front of the history in place. Naming
    the current State again does nothing; otherwise the old State is exited
    before the new one is entered.
   */
  function ChangeStateTo(l: Layer, target: Slot): (o: Outcome)
    ensures o.failure == None && SameConfiguration(l, o.layer) && Valid(o.layer)
    ensures Current(o.layer.history) == target
    ensures |o.layer.history| == |Heal(l.history)|
    ensures o.layer.history[1..] == Heal(l.history)[1..]
    ensures Current(l.history) == target ==> o.layer.history == Heal(l.history) && o.trace == []
    ensures Current(l.history) != target ==> o.trace == ExitHook(Current(l.history)) + EnterHook(target)
  {
    var h := Heal(l.history);
    if h[0] == target then Outcome(l.(history := h), [], None)
    else Outcome(l.(history := SetCurrent(h, target)), ExitHook(h[0]) + EnterHook(target), None)
  }

  /**
    `ChangeState(string)`: the empty name means the null State; any other
    name is looked up in the registry, which throws for an unregistered name
    before anything has been touched.
   */
  function ChangeStateNamed(l: Layer, name: string): (o: Outcome)
    ensures o.failure.None? <==> name == "" || name in l.states
    ensures name == "" ==> o == ChangeStateTo(l, None)
    ensures name != "" && name in l.states ==> o == ChangeStateTo(l, Some(l.states[name]))
    ensures o.failure.Some? ==> o.failure == Some(KeyNotFound(name)) && o.layer == l && o.trace == []
  {
    if name == "" then ChangeStateTo(l, None)
    else if name !in l.states then Outcome(l, [], Some(KeyNotFound(name)))
    else ChangeStateTo(l, Some(l.states[name]))
  }

  /**
    `AddState(string)`: exit the current State, look the name up, and push
    the target on the history; a null front is overwritten instead of pushed
    over. The `Exit` is fired before both the lookup and the re-entry guard,
    so naming the current State, or an unregistered name, still exits it.
   */
  function AddState(l: Layer, name: string): (o: Outcome)
    ensures SameConfiguration(l, o.layer) && Valid(o.layer)
    ensures o.failure.None? <==> name in l.states
    // the lookup throws after the current State has been exited
    ensures name !in l.states ==>
      o.failure == Some(KeyNotFound(name)) && o.layer.history == Heal(l.history)
      && o.trace == ExitHook(Current(l.history))
    // re-entry guard: the history is untouched but the Exit has fired
    ensures name in l.states && Current(l.history) == Some(l.states[name]) ==>
      o.layer.history == Heal(l.history) && o.trace == [Exit(l.states[name])]
    // null front: overwritten in place
    ensures name in l.states && Current(l.history) == None ==>
      o.layer.history == SetCurrent(l.history, Some(l.states[name]))
      && o.trace == [Enter(l.states[name])]
    // non-null front: the target is pushed over the old history
    ensures name in l.states && Current(l.history).Some? && Current(l.history) != Some(l.states[name]) ==>
      o.layer.history == [Some(l.states[name])] + Heal(l.history)
      && o.trace == [Exit(Current(l.history).value), Enter(l.states[name])]
  {
    var h := Heal(l.history);
    var exited := ExitHook(h[0]);
    if name !in l.states then Outcome(l.(history := h), exited, Some(KeyNotFound(name)))
    else
      var target := Some(l.states[name]);
      if h[0] == target then Outcome(l.(history := h), exited, None)
      else
        var h' := if h[0] == None then SetCurrent(h, target) else [target] + h;
        Outcome(l.(history := h'), exited + [Enter(l.states[name])], None)
  }

  /**
    `RemoveState()`: when a State is active, exit it, drop it from the front,
    and enter whatever non-null State the (repaired) history now exposes.
   */
  function RemoveState(l: Layer): (o: Outcome)
    ensures o.failure == None && SameConfiguration(l, o.layer) && Valid(o.layer)
    ensures Current(l.history) == None ==> o.layer.history == Heal(l.history) && o.trace == []
    ensures Current(l.history).Some? && |l.history| > 1 ==> o.layer.history == l.history[1..]
    ensures Current(l.history).Some? && |l.history| <= 1 ==> o.layer.history == [None]
    ensures Current(l.history).Some? ==>
      o.trace == [Exit(Current(l.history).value)] + EnterHook(Current(o.layer.history))
  {
    var h := Heal(l.history);
    if h[0] == None then Outcome(l.(history := h), [], None)
    else
      var rest := Heal(h[1..]);
      Outcome(l.(history := rest), [Exit(h[0].value)] + EnterHook(rest[0]), None)
  }

  /** `RegisterState`: store one registry entry, last writer wins. */
  function RegisterState(l: Layer, name: string, state: StateId): (l': Layer)
    ensures name in l'.states && l'.states[name] == state
    ensures l'.states.Keys == l.states.Keys + {name}
    ensures forall k :: k in l.states && k != name ==> l'.states[k] == l.states[k]
    ensures l'.history == l.history && l'.name == l.name && l'.defaultState == l.defaultState
  {
    l.(states := l.states[name := state])
  }

  /** `Start()`: activate the default State unless its name is empty. */
  function Start(l: Layer): (o: Outcome)
    ensures l.defaultState == "" ==> o == Outcome(l, [], None)
    ensures l.defaultState != "" ==> o == ChangeStateNamed(l, l.defaultState)
  {
    if l.defaultState != "" then ChangeStateNamed(l, l.defaultState) else Outcome(l, [], None)
  }

  /**
    `Update()`: the per-frame hooks of the active State. Each hook call in the
    C# class re-reads `currentState`; since hooks are not modelled as issuing
    transitions, every read sees the same front entry.
   */
  function Update(l: Layer): (o: Outcome)
    ensures o.failure == None && o.layer == l.(history := Heal(l.history))
    ensures Current(l.history) == None ==> o.trace == []
    ensures Current(l.history).Some? ==>
      var s := Current(l.history).value;
      o.trace == [HandleInput(s), HandleShouldChangeState(s), LogicUpdate(s)]
  {
    var h := Heal(l.history);
    match h[0]
    case None => Outcome(l.(history := h), [], None)
    case Some(s) => Outcome(l.(history := h), [HandleInput(s), HandleShouldChangeState(s), LogicUpdate(s)], None)
  }

  /** `FixedUpdate()`: the physics hook of the active State. */
  function FixedUpdate(l: Layer): (o: Outcome)
    ensures o.failure == None && o.layer == l.(history := Heal(l.history))
    ensures Current(l.history) == None ==> o.trace == []
    ensures Current(l.history).Some? ==> o.trace == [PhysicsUpdate(Current(l.history).value)]
  {
    var h := Heal(l.history);
    match h[0]
    case None => Outcome(l.(history := h), [], None)
    case Some(s) => Outcome(l.(history := h), [PhysicsUpdate(s)], None)
  }
}

=== FILE: wrappers.dfy ===
/** Wrapper types shared by the models. */
module Wrappers {

  /** Present or absent value; used wherever the C# code uses a nullable reference. */
  datatype Option<+T> = None | Some(value: T)
}
